=== FILE: README.md ===
# knl-nft: host-port forwarding rules from container annotations

knl-nft is a small node agent. Once a second it asks the container runtime (over CRI) for
every container. It reads each container's `io.kubernetes.container.ports` annotation and
looks up the pod's IP. From these it builds one nftables ruleset: a `container-hostports`
table with a prerouting `dnat` hook, plus one map per protocol from host port to
`pod IP . container port`. It hands that text to `nft -f -`, but only when its 64-bit
fingerprint differs from the one stored after the last successful apply.

This project models that reconciliation pass (`run`) and the connection loop of `main` as
pure Dafny functions over immutable records, and proves properties of them:

- `Cri`: the records a pass reads:
  - containers with id, creation time, pod sandbox id and annotations;
  - `PortMapping`;
  - the answers of the pod-status and list queries.
- `ContainerOrder`: the sort comparator (creation time, then id with Go's string `<`) and
  a sort that realises it.
- `Decimal`: `strconv.Itoa` for every int, negatives included, with a reader for its output.
- `Extract`: the per-container visit (skip, abort or map), the host-port default, and the
  split into the TCP and UDP buffers. It also gives a filter-then-map reference for what
  the buffers end up holding.
- `Ruleset`: the generated text, byte for byte as the pass writes it, and a reader for that
  text. The reader is the partner of the writer in the round-trip theorem.
- `Reconcile`: one whole pass against an environment. The runtime listing, the per-container
  lookups, the fingerprint function and the nft executor are all parameters. The pass ends
  `Aborted` (returns false), `Unchanged`, `Applied` or `Fatal` (the process exits).
- `ConnLoop`: the two-state loop (connection open or nil), start-up, and one tick.

External pieces enter as function-typed parameters:
- JSON decoding: `string -> Option<seq<PortMapping>>`, where `None` means `json.Unmarshal`
  failed.
- `PodSandboxStatus`: an error or an IP string.
- xxhash: an uninterpreted `string -> Hash`, with `Hash` the range of a uint64.
- nft: a `string -> bool` oracle that says whether it accepts the text.
- The dial's outcome: a boolean per tick.

Three consequences of the code are worth stating plainly:

- Any `false` from `run` closes the connection (main.go:59-62). That includes the `false`
  caused by a malformed ports annotation (main.go:104-107), not only failed runtime queries.
- A failed first dial ends the process (main.go:42-45); only later dials are retried
  (main.go:50-55).
- The stored fingerprint starts at zero (main.go:71). A first ruleset whose fingerprint
  happens to be 0 is therefore never applied (`FirstPassApplies` has a non-zero fingerprint
  as its precondition).

## Model

| member | source | states |
|---|---|---|
| Decimal.Itoa | main.go:130 | the decimal text of any int is non-empty and all digits, with a leading '-' exactly when the int is negative, and has no leading zero after the sign (Go's canonical spelling) |
| Decimal.ItoaRoundTrip | main.go:130 | reading back the text written for a port number gives that number, negative values included |
| Decimal.ItoaInjective | main.go:130 | different port numbers never produce the same text in a map element |
| ContainerOrder.LessIsStrictOrder | main.go:87-93 | the comparator is irreflexive and transitive, and it orders any two containers that differ in creation time or id |
| ContainerOrder.StrLess | main.go:92 | Go's `<` on strings; its properties are stated by StrLessIrreflexive, StrLessTransitive and StrLessTotal |
| ContainerOrder.StrLessIrreflexive | main.go:92 | no id sorts before itself |
| ContainerOrder.StrLessTransitive | main.go:92 | the id order is transitive |
| ContainerOrder.StrLessTotal | main.go:92 | of two different ids, one sorts before the other |
| ContainerOrder.Less | main.go:87-93 | the comparator: earlier creation first, ties by id; its order properties are stated by LessIsStrictOrder |
| ContainerOrder.Sort | main.go:87-93 | the sorted containers are a permutation of the listed ones, with no container placed after one that the comparator puts later |
| ContainerOrder.SortAscending | main.go:87-93 | after sorting, creation times ascend, and containers created at the same time come in ascending id order when their ids differ |
| ContainerOrder.SortedPermutationUnique | main.go:87-93 | two sorted arrangements of the same containers are equal when containers sharing creation time and id are the same record |
| ContainerOrder.SortIgnoresListingOrder | main.go:80-93 | the order in which the runtime lists containers does not change the sorted sequence (distinct keys) |
| Cri.PortsText | main.go:96-97 | the ports annotation's text, and the empty string when the annotation is absent |
| Extract.EntryOf | main.go:125-128 | an entry's host port is the declared host port, or the container port when the declared host port is 0; IP and container port are copied |
| Extract.HostPortZeroOnlyIfBothZero | main.go:125-128 | an entry's host port is 0 only when both declared ports are 0 |
| Extract.Write | main.go:131-136 | a TCP mapping appends its entry to the TCP buffer only, a UDP mapping to the UDP buffer only, and any other protocol changes nothing |
| Extract.WriteAll | main.go:124-137 | the inner port loop only appends to the buffers and adds at most one entry per declared port; what it appends is stated by WriteAllIsFilterThenMap |
| Extract.KeepExactly | main.go:131-136 | a mapping ends up in a protocol's list exactly when it is declared and has that protocol |
| Extract.WriteAllIsFilterThenMap | main.go:124-137 | writing a container's ports appends exactly its TCP mappings' entries to the TCP buffer and its UDP mappings' entries to the UDP buffer, in declared order |
| Extract.VisitContainer | main.go:95-122 | a container is skipped for lack of ports exactly when its annotation is absent or empty; a present annotation that does not decode fails with `InvalidPorts`; a `PodStatusFailed` failure means declared ports and a failed pod query; a present annotation with declared ports and a non-empty pod IP is mapped to exactly those ports and that IP, and every mapped container is of that kind |
| Extract.SkipConditions | main.go:95-122 | an absent or empty annotation, an empty decoded list, or an empty pod IP each skip the container without failing the pass |
| Extract.Collect | main.go:95-138 | the per-container loop only appends to the buffers; when it fails and what it yields are stated by CollectFailsIffSomeVisitFails and CollectMatchesReference |
| Extract.CollectFailsIffSomeVisitFails | main.go:95-138 | the per-container loop aborts exactly when the visit of some container fails |
| Extract.CollectMatchesReference | main.go:95-138 | when no visit fails, each buffer holds its protocol's entries: container after container, declared order within one |
| Extract.CollectAppend | main.go:95-138 | running the loop over two consecutive runs of containers is running it over the first, then over the second from where the first left the buffers |
| Extract.SkippedContainerIsInvisible | main.go:95-122 | removing a skipped container from anywhere in the list does not change the pass's buffers or its failure |
| Ruleset.EntryLine | main.go:130 | an element line starts with the six-space indent and ends with a line break |
| Ruleset.Element | main.go:130 | the `host : ip . container` element; ElementRoundTrip states that it reads back as its entry |
| Ruleset.LineBody | main.go:130 | an element line without its break starts with the six-space indent; LineBodyRoundTrip states that it reads back as its entry |
| Ruleset.ExampleEntryLine | main.go:130 | host port 80 to 10.0.0.5 port 8080 is written as `      80 : 10.0.0.5 . 8080,` and a line break |
| Ruleset.BufferText | main.go:133-135 | a protocol buffer is empty exactly when no entry of that protocol was written |
| Ruleset.ElementRoundTrip | main.go:130 | an element reads back as the entry it was written from, whatever the IP text holds between the separators |
| Ruleset.ParseEntriesOfBuffer | main.go:158 | the element lines of a buffer read back, in order, as exactly the entries written, when no IP holds a line break |
| Ruleset.Render | main.go:140-167 | the ruleset builder, each hook section written through `Optional` only when its protocol has entries; RulesetFrame, HookLinesIffEntries and RulesetRoundTrip state its frame, its conditional hook lines and that its map blocks carry exactly the buffers |
| Ruleset.RulesetText | main.go:140-167 | the builder applied to the buffers' texts; stated by the same three lemmas |
| Ruleset.RulesetFrame | main.go:140-167 | every ruleset starts with the table reset and prerouting chain header and ends with `}` and a line break |
| Ruleset.HookLinesIffEntries | main.go:148-154 | right after the header the TCP hook line appears exactly when there are TCP entries, then the UDP hook line exactly when there are UDP entries, and then the chain closes |
| Ruleset.RulesetRoundTrip | main.go:140-167 | reading a generated ruleset recovers both entry lists, so map blocks and their contents appear exactly as the buffers dictate (IPs without line breaks) |
| Reconcile.DesiredBuffers | main.go:80-138 | a failed listing aborts the pass; otherwise the pass aborts exactly when some sorted container's visit fails, and it yields the reference entries of the sorted containers |
| Reconcile.ApplyIfChanged | main.go:169-188 | an equal fingerprint skips the apply; a different one applies when nft accepts the text (storing that fingerprint) and is fatal when it does not |
| Reconcile.Run | main.go:73-189 | a pass aborts exactly when building the buffers aborts, and otherwise handles the ruleset text of those buffers |
| Reconcile.StoredHash | main.go:169-186 | the stored fingerprint changes only after an apply, and then becomes the applied text's fingerprint |
| Reconcile.Returned | main.go:73-189 | `run` returns true exactly when the pass does not abort |
| Reconcile.AbortKeepsState | main.go:80-117 | a failed listing, a malformed ports annotation or a failed pod query makes the pass return false and leaves the stored fingerprint alone |
| Reconcile.HashChangesOnlyOnApply | main.go:176-186 | the stored fingerprint changes only to the fingerprint of a text that nft accepted |
| Reconcile.SameFingerprintSkips | main.go:169-172 | a ruleset whose fingerprint equals the stored one returns true without applying and keeps the stored fingerprint |
| Reconcile.SecondPassIsNoOp | main.go:169-188 | repeating a successful pass against an unchanged runtime applies nothing |
| Reconcile.FirstPassApplies | main.go:169-188 | with the initial stored fingerprint 0, a pass that does not abort applies its ruleset (or dies on nft failure) unless that ruleset's fingerprint is 0 |
| Reconcile.ListingOrderIrrelevant | main.go:80-93 | the whole outcome of a pass does not depend on the order in which the runtime lists containers (when containers sharing creation time and id are the same record) |
| Reconcile.InvalidPortsAborts | main.go:103-107 | one listed container with an undecodable ports annotation aborts the pass, whatever the others hold |
| Reconcile.PodQueryFailureAborts | main.go:113-117 | one listed container with declared ports whose pod query fails aborts the pass |
| Reconcile.AbortCauses | main.go:80-117 | a pass returns false exactly when the listing fails or some listed container has an undecodable annotation or declared ports with a failed pod query; nothing else aborts it |
| Reconcile.RulesetEncodesMappings | main.go:124-167 | the text a pass applies, or finds already applied, encodes exactly the mapped entries of each protocol in sorted-container and declared order (pod IPs without line breaks) |
| Reconcile.TwoContainerExample | main.go:87-137 | two containers listed newest first are visited oldest first; the TCP one fills only the TCP map and the UDP one only the UDP map |
| ConnLoop.Start | main.go:42-45 | the process runs, connected and with stored fingerprint 0 (the zero value of `prevRulesHash` declared at main.go line 71), exactly when the first dial succeeds |
| ConnLoop.Tick | main.go:49-63 | a failed re-dial skips the tick; otherwise the process ends exactly when nft rejects the pass's text, the connection is dropped exactly when the pass returns false, and the stored fingerprint follows the pass |
| ConnLoop.NoDialWhileConnected | main.go:50-57 | an open connection is reused: the dial outcome does not matter while connected |
| ConnLoop.DisconnectIffAborted | main.go:59-62 | from a connected state, the connection is dropped exactly when the pass aborts |
| ConnLoop.SteadyState | main.go:49-63 | after one successful tick against an unchanging runtime, every further tick leaves the state alone and applies nothing |

## Left out

- Dialling the runtime, the gRPC client and the 5-second query deadline are not modelled. The
  dial outcome is a boolean per tick; the listing and the per-pod answers are given values.
- `time.Tick` scheduling, zerolog logging, `envFlag` and flag parsing are not modelled; none
  of them affects a pass's result.
- JSON decoding is not modelled: Go's case-insensitive field matching, number overflow and
  unknown-field handling stay inside the abstract decoder.
- xxhash is not modelled: the fingerprint is uninterpreted. Because of collisions nothing is
  claimed about "different text ⇒ apply", only that equal fingerprints skip.
- `nft -f -` and `log.Fatal` are not modelled. The executor is an oracle, and its failure is
  the `Fatal` outcome, after which the loop is `Terminated`.
- The pod-status answer is a function of the sandbox id, so two containers of one pod see
  the same answer within a pass. The real runtime is queried once per container and could
  change between queries.
- Nil `Metadata`, `Status` or `Network` fields, which would make the Go code panic, are not
  modelled.
- ContainerOrder.StrLess: compares code points where Go compares UTF-8 bytes. The two orders
  agree on valid UTF-8 text.
- ContainerOrder.Sort: is a stable insertion sort, while Go's `sort.Slice` is not stable.
  The two can differ only in how they order distinct records that share creation time and
  id. `SortIgnoresListingOrder` excludes that case by its precondition.
- Reconcile.ListingOrderIrrelevant: holds only when containers that share creation time and
  id are the same record, because `sort.Slice` leaves the order of such ties unspecified;
  with two such distinct records the buffers can depend on the listing order.
- Ruleset.HookLinesIffEntries: states presence by position (the line that follows the
  header), not as "the text contains the hook line". A pod IP is an arbitrary string and
  could itself contain that line.
- Ruleset.RulesetRoundTrip: needs pod IPs without line breaks. An IP holding a line break
  would make element lines ambiguous.
- Reconcile.RulesetEncodesMappings: needs the listed containers' pod IPs to hold no line
  break, for the same reason: such an IP would make element lines ambiguous to the reader.
- The container name read at main.go:101 is used only for logging and plays no part.

=== FILE: basics.dfy ===
/** Small failure-carrying datatypes shared by the whole model. */
module Basics {

  /** A value that may be absent: a missing map key, a failed decode. */
  datatype Option<+T> = None | Some(value: T)

  /** Either a value or the reason an operation gave up. */
  datatype Result<+T, +E> = Ok(value: T) | Err(error: E)

  /** An unsigned 64-bit value, the width of the stored ruleset fingerprint. */
  type Hash = x: int | 0 <= x < 0x1_0000_0000_0000_0000
}

=== FILE: cri.dfy ===
/** The records the container runtime hands back, reduced to the fields a pass reads. */
module Cri {

  /** Annotation under which the kubelet records a container's declared ports. */
  const PortsAnnotation: string := "io.kubernetes.container.ports"

  /** One declared port: `HostPort`, `ContainerPort` and `Protocol` as decoded from JSON. */
  datatype PortMapping = PortMapping(hostPort: int, containerPort: int, protocol: string)

  /** A container as listed by the runtime: id, creation time (nanoseconds),
      owning pod sandbox, annotations and metadata name. */
  datatype Container = Container(
    id: string,
    createdAt: int,
    podSandboxId: string,
    annotations: map<string, string>,
    name: string)

  /** Reading a missing key of a Go map yields the empty string. */
  function PortsText(c: Container): (s: string)
    ensures PortsAnnotation !in c.annotations ==> s == ""
    ensures PortsAnnotation in c.annotations ==> s == c.annotations[PortsAnnotation]
  {
    if PortsAnnotation in c.annotations then c.annotations[PortsAnnotation] else ""
  }

  /** Answer of a `PodSandboxStatus` query: a transport error, or the pod's primary IP
      (empty when the pod has no network address). */
  datatype PodStatus = PodQueryFailed | PodIp(ip: string)

  /** Answer of a `ListContainers` query. */
  datatype Listing = ListFailed | Listed(containers: seq<Container>)
}

=== FILE: decimal.dfy ===
/** Decimal rendering of integers, as Go's `strconv.Itoa` writes them, and its inverse. */
module Decimal {
  import opened Basics

  predicate IsDigit(c: char) {
    '0' <= c <= '9'
  }

  function DigitChar(d: nat): (c: char)
    requires d < 10
    ensures IsDigit(c)
  {
    ('0' as int + d) as char
  }

  function DigitValue(c: char): (d: nat)
    requires IsDigit(c)
    ensures d < 10
    ensures DigitChar(d) == c
  {
    (c as int - '0' as int) as nat
  }

  predicate AllDigits(s: string) {
    forall i :: 0 <= i < |s| ==> IsDigit(s[i])
  }

  /** The shortest decimal spelling of `n`: no sign, no leading zero. */
  function Digits(n: nat): (s: string)
    ensures 0 < |s|
    ensures AllDigits(s)
    ensures |s| > 1 ==> s[0] != '0'
  {
    if n < 10 then [DigitChar(n)]
    else Digits(n / 10) + [DigitChar(n % 10)]
  }

  /** `strconv.Itoa`: a leading '-' for negative values, then the digits of the magnitude. */
  function Itoa(i: int): (s: string)
    ensures 0 < |s|
    ensures forall k :: 0 <= k < |s| ==> IsDigit(s[k]) || (k == 0 && s[k] == '-')
    ensures s[0] == '-' <==> i < 0
    ensures var d := if i < 0 then s[1..] else s; 0 < |d| && (|d| > 1 ==> d[0] != '0')
  {
    if i < 0 then "-" + Digits(-i) else Digits(i)
  }

  /** The number a string of digits spells (0 for the empty string). */
  function DigitsValue(s: string): nat
    requires AllDigits(s)
  {
    if |s| == 0 then 0
    else DigitsValue(s[..|s| - 1]) * 10 + DigitValue(s[|s| - 1])
  }

  /** Reads an optionally negative decimal integer; `None` for anything else. */
  function ParseInt(s: string): (r: Option<int>)
    ensures r.Some? ==> 0 < |s|
  {
    if 0 < |s| && s[0] == '-' then
      var m := s[1..];
      if 0 < |m| && AllDigits(m) then Some(0 - DigitsValue(m) as int) else None
    else if 0 < |s| && AllDigits(s) then Some(DigitsValue(s))
    else None
  }

  lemma {:induction false} DigitsValueOfDigits(n: nat)
    ensures DigitsValue(Digits(n)) == n
  {
    var s := Digits(n);
    if n < 10 {
      assert s[..0] == [];
    } else {
      assert s[..|s| - 1] == Digits(n / 10);
      DigitsValueOfDigits(n / 10);
    }
  }

  /** Reading back what `Itoa` wrote gives the original integer. */
  lemma ItoaRoundTrip(i: int)
    ensures ParseInt(Itoa(i)) == Some(i)
  {
    if i < 0 {
      assert Itoa(i)[1..] == Digits(-i);
      DigitsValueOfDigits(-i);
    } else {
      DigitsValueOfDigits(i);
    }
  }

  /** Distinct integers are written differently. */
  lemma ItoaInjective(i: int, j: int)
    ensures Itoa(i) == Itoa(j) ==> i == j
  {
    ItoaRoundTrip(i);
    ItoaRoundTrip(j);
  }
}

=== FILE: extract.dfy ===
/** Per-container extraction of port mappings and their split into TCP and UDP entries. */
module Extract {
  import opened Basics
  import opened Cri
  import opened Text

  /** One element of a protocol map: traffic to `hostPort` goes to `ip`:`containerPort`. */
  datatype Entry = Entry(hostPort: int, ip: string, containerPort: int)

  /** The two map buffers a pass fills, in write order. */
  datatype Buffers = Buffers(tcp: seq<Entry>, udp: seq<Entry>)

  /** Why a pass gave up before building a ruleset. */
  datatype Abort =
    | ListContainersFailed
    | InvalidPorts(containerId: string)
    | PodStatusFailed(podSandboxId: string)

  /** The external lookups a pass makes per container: JSON decoding of the ports
      annotation (`None` when `json.Unmarshal` fails) and the pod status query. */
  datatype Lookups = Lookups(
    decode: string -> Option<seq<PortMapping>>,
    podStatus: string -> PodStatus)

  /** Why a container contributes nothing without failing the pass. */
  datatype SkipReason = NoPortsAnnotation | NoDeclaredPorts | NoPodIp

  /** What visiting one container yields. */
  datatype Visit =
    | Skipped(reason: SkipReason)
    | Mapped(ports: seq<PortMapping>, ip: string)
    | Failed(abort: Abort)

  /** The entry one declared port yields for a pod IP; an undeclared (zero) host port
      means "same as the container port". */
  function EntryOf(m: PortMapping, ip: string): (e: Entry)
    ensures e.ip == ip && e.containerPort == m.containerPort
    ensures m.hostPort != 0 ==> e.hostPort == m.hostPort
    ensures m.hostPort == 0 ==> e.hostPort == m.containerPort
  {
    var hostPort := if m.hostPort == 0 then m.containerPort else m.hostPort;
    Entry(hostPort, ip, m.containerPort)
  }

  /** A host port is zero only when both declared ports are. */
  lemma HostPortZeroOnlyIfBothZero(m: PortMapping, ip: string)
    ensures EntryOf(m, ip).hostPort == 0 <==> m.hostPort == 0 && m.containerPort == 0
  {
  }

  /** Writes one mapping to the buffer its protocol names; other protocols are dropped. */
  function Write(acc: Buffers, m: PortMapping, ip: string): (r: Buffers)
    ensures m.protocol == "TCP" ==> r == acc.(tcp := acc.tcp + [EntryOf(m, ip)])
    ensures m.protocol == "UDP" ==> r == acc.(udp := acc.udp + [EntryOf(m, ip)])
    ensures m.protocol != "TCP" && m.protocol != "UDP" ==> r == acc
  {
    if m.protocol == "TCP" then acc.(tcp := acc.tcp + [EntryOf(m, ip)])
    else if m.protocol == "UDP" then acc.(udp := acc.udp + [EntryOf(m, ip)])
    else acc
  }

  /** The inner loop of a pass: every declared port of one container, in declared order. */
  function WriteAll(acc: Buffers, ports: seq<PortMapping>, ip: string): (r: Buffers)
    ensures |r.tcp| + |r.udp| <= |acc.tcp| + |acc.udp| + |ports|
    ensures acc.tcp <= r.tcp && acc.udp <= r.udp
    decreases |ports|
  {
    if |ports| == 0 then acc
    else WriteAll(Write(acc, ports[0], ip), ports[1..], ip)
  }

  /** The declared ports of one protocol, in declared order. */
  function Keep(ports: seq<PortMapping>, proto: string): (r: seq<PortMapping>)
    ensures |r| <= |ports|
  {
    if |ports| == 0 then []
    else if ports[0].protocol == proto then [ports[0]] + Keep(ports[1..], proto)
    else Keep(ports[1..], proto)
  }

  /** A mapping is kept exactly when it is declared with that protocol. */
  lemma {:induction false} KeepExactly(ports: seq<PortMapping>, proto: string, m: PortMapping)
    ensures m in Keep(ports, proto) <==> m in ports && m.protocol == proto
    decreases |ports|
  {
    if |ports| != 0 {
      KeepExactly(ports[1..], proto, m);
      assert ports == [ports[0]] + ports[1..];
    }
  }

  /** The entries of a list of mappings for one pod IP. */
  function Entries(ms: seq<PortMapping>, ip: string): (r: seq<Entry>)
    ensures |r| == |ms|
  {
    if |ms| == 0 then [] else [EntryOf(ms[0], ip)] + Entries(ms[1..], ip)
  }

  lemma {:induction false} EntriesShareIp(ms: seq<PortMapping>, ip: string)
    ensures forall k :: 0 <= k < |ms| ==> Entries(ms, ip)[k] == EntryOf(ms[k], ip)
    decreases |ms|
  {
    if |ms| != 0 {
      EntriesShareIp(ms[1..], ip);
    }
  }

  lemma {:induction false} EntriesAppend(a: seq<PortMapping>, b: seq<PortMapping>, ip: string)
    ensures Entries(a + b, ip) == Entries(a, ip) + Entries(b, ip)
    decreases |a|
  {
    if |a| == 0 {
      assert a + b == b;
    } else {
      assert (a + b)[1..] == a[1..] + b;
      EntriesAppend(a[1..], b, ip);
    }
  }

  lemma KeepCons(ports: seq<PortMapping>, proto: string)
    requires 0 < |ports|
    ensures Keep(ports, proto) == Keep([ports[0]], proto) + Keep(ports[1..], proto)
  {
    assert [ports[0]][1..] == [];
  }

  /** One write appends the mapping's entry to its protocol's buffer. */
  lemma WriteIsFilterThenMap(acc: Buffers, m: PortMapping, ip: string)
    ensures Write(acc, m, ip)
         == Buffers(acc.tcp + Entries(Keep([m], "TCP"), ip), acc.udp + Entries(Keep([m], "UDP"), ip))
  {
    assert [m][1..] == [];
    assert acc.tcp + [] == acc.tcp && acc.udp + [] == acc.udp;
  }

  /** Writing a container's ports appends exactly its TCP mappings to the TCP buffer and
      its UDP mappings to the UDP buffer, each in declared order. */
  lemma {:induction false} WriteAllIsFilterThenMap(acc: Buffers, ports: seq<PortMapping>, ip: string)
    ensures WriteAll(acc, ports, ip)
         == Buffers(acc.tcp + Entries(Keep(ports, "TCP"), ip), acc.udp + Entries(Keep(ports, "UDP"), ip))
    decreases |ports|
  {
    if |ports| == 0 {
      assert acc.tcp + [] == acc.tcp && acc.udp + [] == acc.udp;
    } else {
      var m, rest := ports[0], ports[1..];
      var next := Write(acc, m, ip);
      assert WriteAll(acc, ports, ip) == WriteAll(next, rest, ip);
      WriteIsFilterThenMap(acc, m, ip);
      WriteAllIsFilterThenMap(next, rest, ip);
      KeepCons(ports, "TCP");
      KeepCons(ports, "UDP");
      EntriesAppend(Keep([m], "TCP"), Keep(rest, "TCP"), ip);
      EntriesAppend(Keep([m], "UDP"), Keep(rest, "UDP"), ip);
      AppendAssoc(acc.tcp, Entries(Keep([m], "TCP"), ip), Entries(Keep(rest, "TCP"), ip));
      AppendAssoc(acc.udp, Entries(Keep([m], "UDP"), ip), Entries(Keep(rest, "UDP"), ip));
    }
  }

  /** The body of the per-container loop of a pass, up to the per-port writes. */
  function VisitContainer(c: Container, lookups: Lookups): (v: Visit)
    ensures v.Skipped? && v.reason == NoPortsAnnotation <==> PortsText(c) == ""
    ensures v.Failed? && v.abort.InvalidPorts? ==> lookups.decode(PortsText(c)).None?
    ensures v.Failed? ==> v.abort == InvalidPorts(c.id) || v.abort == PodStatusFailed(c.podSandboxId)
    ensures v.Failed? && v.abort.PodStatusFailed? ==>
      lookups.decode(PortsText(c)).Some? && lookups.decode(PortsText(c)).value != []
      && lookups.podStatus(c.podSandboxId) == PodQueryFailed
    ensures v.Mapped? ==> (v.ports != [] && v.ip != ""
                           && Some(v.ports) == lookups.decode(PortsText(c))
                           && lookups.podStatus(c.podSandboxId) == PodIp(v.ip))
    ensures PortsText(c) != "" && lookups.decode(PortsText(c)).None? ==> v == Failed(InvalidPorts(c.id))
    ensures PortsText(c) != "" && lookups.decode(PortsText(c)).Some? && lookups.decode(PortsText(c)).value != []
            && lookups.podStatus(c.podSandboxId).PodIp? && lookups.podStatus(c.podSandboxId).ip != ""
            ==> v == Mapped(lookups.decode(PortsText(c)).value, lookups.podStatus(c.podSandboxId).ip)
  {
    var portsText := PortsText(c);
    if portsText == "" then Skipped(NoPortsAnnotation)
    else match lookups.decode(portsText)
      case None => Failed(InvalidPorts(c.id))
      case Some(ports) =>
        if |ports| == 0 then Skipped(NoDeclaredPorts)
        else match lookups.podStatus(c.podSandboxId)
          case PodQueryFailed => Failed(PodStatusFailed(c.podSandboxId))
          case PodIp(ip) => if ip == "" then Skipped(NoPodIp) else Mapped(ports, ip)
  }

  /** The three ways a container is passed over: no ports annotation (absent or empty), a
      ports list that decodes to nothing, or a pod without an IP. */
  lemma SkipConditions(c: Container, lookups: Lookups)
    ensures PortsText(c) == "" ==> VisitContainer(c, lookups) == Skipped(NoPortsAnnotation)
    ensures PortsText(c) != "" && lookups.decode(PortsText(c)) == Some([])
            ==> VisitContainer(c, lookups) == Skipped(NoDeclaredPorts)
    ensures PortsText(c) != "" && lookups.decode(PortsText(c)).Some?
            && lookups.decode(PortsText(c)).value != []
            && lookups.podStatus(c.podSandboxId) == PodIp("")
            ==> VisitContainer(c, lookups) == Skipped(NoPodIp)
  {
  }

  /** The buffers after a visit that did not fail. */
  function Advance(acc: Buffers, v: Visit): Buffers
    requires !v.Failed?
  {
    match v
    case Mapped(ports, ip) => WriteAll(acc, ports, ip)
    case Skipped(_) => acc
  }

  /** The per-container loop of a pass over the (already sorted) containers: the first
      failure ends it; skipped containers leave the buffers alone. */
  function Collect(ctrs: seq<Container>, lookups: Lookups, acc: Buffers): (r: Result<Buffers, Abort>)
    ensures r.Ok? ==> acc.tcp <= r.value.tcp && acc.udp <= r.value.udp
    decreases |ctrs|
  {
    if |ctrs| == 0 then Ok(acc)
    else
      var v := VisitContainer(ctrs[0], lookups);
      if v.Failed? then Err(v.abort) else Collect(ctrs[1..], lookups, Advance(acc, v))
  }

  /** Reference for the entries one visit adds to a protocol's map. */
  function Contribution(v: Visit, proto: string): seq<Entry> {
    match v
    case Mapped(ports, ip) => Entries(Keep(ports, proto), ip)
    case _ => []
  }

  /** Reference for one protocol's entries: each container's mappings of that protocol,
      container after container. */
  function ProtocolEntries(ctrs: seq<Container>, lookups: Lookups, proto: string): seq<Entry>
    decreases |ctrs|
  {
    if |ctrs| == 0 then []
    else Contribution(VisitContainer(ctrs[0], lookups), proto) + ProtocolEntries(ctrs[1..], lookups, proto)
  }

  predicate NoneFails(ctrs: seq<Container>, lookups: Lookups) {
    forall i :: 0 <= i < |ctrs| ==> !VisitContainer(ctrs[i], lookups).Failed?
  }

  lemma NoneFailsTail(ctrs: seq<Container>, lookups: Lookups)
    requires 0 < |ctrs|
    ensures NoneFails(ctrs, lookups) <==>
      !VisitContainer(ctrs[0], lookups).Failed? && NoneFails(ctrs[1..], lookups)
  {
    if !VisitContainer(ctrs[0], lookups).Failed? && NoneFails(ctrs[1..], lookups) {
      forall i | 1 <= i < |ctrs| ensures !VisitContainer(ctrs[i], lookups).Failed? {
        assert ctrs[i] == ctrs[1..][i - 1];
      }
    }
    if NoneFails(ctrs, lookups) {
      forall i | 0 <= i < |ctrs[1..]| ensures !VisitContainer(ctrs[1..][i], lookups).Failed? {
        assert ctrs[1..][i] == ctrs[i + 1];
      }
    }
  }

  /** A pass aborts exactly when some container's visit fails. */
  lemma {:induction false} CollectFailsIffSomeVisitFails(ctrs: seq<Container>, lookups: Lookups, acc: Buffers)
    ensures Collect(ctrs, lookups, acc).Err? <==> !NoneFails(ctrs, lookups)
    decreases |ctrs|
  {
    if |ctrs| != 0 {
      NoneFailsTail(ctrs, lookups);
      var v := VisitContainer(ctrs[0], lookups);
      if !v.Failed? {
        CollectFailsIffSomeVisitFails(ctrs[1..], lookups, Advance(acc, v));
      }
    }
  }

  /** One visit appends exactly its reference contribution to each buffer. */
  lemma AdvanceMatchesContribution(acc: Buffers, v: Visit)
    requires !v.Failed?
    ensures Advance(acc, v) == Buffers(acc.tcp + Contribution(v, "TCP"), acc.udp + Contribution(v, "UDP"))
  {
    match v
    case Mapped(ports, ip) => WriteAllIsFilterThenMap(acc, ports, ip);
    case Skipped(_) => assert acc.tcp + [] == acc.tcp && acc.udp + [] == acc.udp;
  }

  /** When nothing fails, the buffers hold exactly the reference entries, in order. */
  lemma {:induction false} CollectMatchesReference(ctrs: seq<Container>, lookups: Lookups, acc: Buffers)
    requires NoneFails(ctrs, lookups)
    ensures Collect(ctrs, lookups, acc)
         == Ok(Buffers(acc.tcp + ProtocolEntries(ctrs, lookups, "TCP"),
                       acc.udp + ProtocolEntries(ctrs, lookups, "UDP")))
    decreases |ctrs|
  {
    if |ctrs| == 0 {
      assert acc.tcp + [] == acc.tcp && acc.udp + [] == acc.udp;
    } else {
      NoneFailsTail(ctrs, lookups);
      var v := VisitContainer(ctrs[0], lookups);
      var next := Advance(acc, v);
      assert Collect(ctrs, lookups, acc) == Collect(ctrs[1..], lookups, next);
      AdvanceMatchesContribution(acc, v);
      CollectMatchesReference(ctrs[1..], lookups, next);
      AppendAssoc(acc.tcp, Contribution(v, "TCP"), ProtocolEntries(ctrs[1..], lookups, "TCP"));
      AppendAssoc(acc.udp, Contribution(v, "UDP"), ProtocolEntries(ctrs[1..], lookups, "UDP"));
    }
  }

  /** Splitting the container list splits the pass: the second part continues from the
      buffers the first part left. */
  lemma {:induction false} CollectAppend(a: seq<Container>, b: seq<Container>, lookups: Lookups, acc: Buffers)
    ensures Collect(a + b, lookups, acc)
         == match Collect(a, lookups, acc)
            case Err(e) => Err(e)
            case Ok(mid) => Collect(b, lookups, mid)
    decreases |a|
  {
    if |a| != 0 {
      assert (a + b)[0] == a[0] && (a + b)[1..] == a[1..] + b;
      var v := VisitContainer(a[0], lookups);
      if !v.Failed? {
        CollectAppend(a[1..], b, lookups, Advance(acc, v));
      }
    } else {
      assert a + b == b;
    }
  }

  /** A skipped container (no annotation, no declared ports, or no pod IP) can be removed
      without changing the outcome of the pass. */
  lemma SkippedContainerIsInvisible(a: seq<Container>, c: Container, b: seq<Container>, lookups: Lookups, acc: Buffers)
    requires VisitContainer(c, lookups).Skipped?
    ensures Collect(a + [c] + b, lookups, acc) == Collect(a + b, lookups, acc)
  {
    CollectAppend(a, [c] + b, lookups, acc);
    CollectAppend(a, b, lookups, acc);
    assert a + [c] + b == a + ([c] + b);
    match Collect(a, lookups, acc)
    case Err(_) =>
    case Ok(mid) =>
      assert ([c] + b)[1..] == b;
  }
}

=== FILE: loop.dfy ===
/** The process's main loop: a runtime connection that is either open or not, and the
    fingerprint of the last applied ruleset, advanced once per tick. */
module ConnLoop {
  import opened Basics
  import opened Reconcile

  datatype Conn = Disconnected | Connected

  /** The state that survives from one tick to the next. */
  datatype LoopState = LoopState(conn: Conn, prevHash: Hash)

  /** The process either keeps ticking or has terminated on a fatal error. */
  datatype Process = Running(state: LoopState) | Terminated

  /** Start-up: the first dial must succeed, otherwise the process exits; the stored
      fingerprint starts at zero. */
  function Start(dialOk: bool): (p: Process)
    ensures p.Running? <==> dialOk
    ensures p.Running? ==> p.state == LoopState(Connected, 0)
  {
    if dialOk then Running(LoopState(Connected, 0)) else Terminated
  }

  /** One tick. A closed connection is re-dialled first (`dialOk` is that attempt's result;
      a failed dial skips the tick). A pass that returns false closes the connection; a
      pass whose ruleset nft rejects ends the process. */
  function Tick(s: LoopState, dialOk: bool, env: Env): (p: Process)
    ensures s.conn.Disconnected? && !dialOk ==> p == Running(s)
    ensures p.Terminated? <==> (s.conn.Connected? || dialOk) && Run(env, s.prevHash).Fatal?
    ensures p.Running? && (s.conn.Connected? || dialOk) ==>
      (p.state.conn.Disconnected? <==> !Returned(Run(env, s.prevHash)))
    ensures p.Running? && (s.conn.Connected? || dialOk) ==>
      p.state.prevHash == StoredHash(s.prevHash, Run(env, s.prevHash))
  {
    if s.conn.Disconnected? && !dialOk then Running(s)
    else
      var o := Run(env, s.prevHash);
      match o
      case Fatal(_) => Terminated
      case Aborted(_) => Running(LoopState(Disconnected, s.prevHash))
      case Unchanged(_) => Running(LoopState(Connected, s.prevHash))
      case Applied(_, hash) => Running(LoopState(Connected, hash))
  }

  /** The outcome of dialling only matters while disconnected: an open connection is reused. */
  lemma NoDialWhileConnected(s: LoopState, env: Env)
    requires s.conn.Connected?
    ensures Tick(s, true, env) == Tick(s, false, env)
  {
  }

  /** The connection is dropped exactly when the pass aborts. */
  lemma DisconnectIffAborted(s: LoopState, env: Env)
    requires s.conn.Connected?
    requires !Run(env, s.prevHash).Fatal?
    ensures Tick(s, false, env).Running?
    ensures Tick(s, false, env).state.conn.Disconnected? <==> Run(env, s.prevHash).Aborted?
  {
  }

  /** Applies `step` `n` times, stopping at termination. */
  function Iterate(step: LoopState -> Process, s: LoopState, n: nat): Process
    decreases n
  {
    if n == 0 then Running(s)
    else
      var p := step(s);
      if p.Terminated? then Terminated else Iterate(step, p.state, n - 1)
  }

  /** Ticks `n` times against an unchanging runtime, dialling successfully whenever asked. */
  function Repeat(s: LoopState, env: Env, n: nat): Process {
    Iterate(t => Tick(t, true, env), s, n)
  }

  /** A successful tick leaves an open connection and a stored fingerprint that makes
      the same runtime's next pass build nothing new. */
  lemma TickSettles(s: LoopState, env: Env)
    requires Tick(s, true, env).Running?
    requires !Run(env, s.prevHash).Aborted?
    ensures var next := Tick(s, true, env).state;
      next.conn.Connected? && Run(env, next.prevHash).Unchanged?
  {
    SecondPassIsNoOp(env, s.prevHash);
  }

  /** A settled state is a fixed point of one tick. */
  lemma SettledTick(t: LoopState, env: Env)
    ensures t.conn.Connected? && Run(env, t.prevHash).Unchanged? ==> Tick(t, true, env) == Running(t)
  {
  }

  /** A state one step leaves alone is left alone by any number of steps. */
  lemma {:induction false} FixedPointIterates(step: LoopState -> Process, t: LoopState, n: nat)
    requires step(t) == Running(t)
    ensures Iterate(step, t, n) == Running(t)
    decreases n
  {
    if n > 0 {
      FixedPointIterates(step, t, n - 1);
    }
  }

  /** Once a tick has succeeded against a runtime that then stays the same, every further
      tick leaves the state alone and applies nothing. */
  lemma SteadyState(s: LoopState, env: Env, n: nat)
    requires Tick(s, true, env).Running?
    requires !Run(env, s.prevHash).Aborted?
    ensures var next := Tick(s, true, env).state;
      Repeat(next, env, n) == Running(next)
      && Run(env, next.prevHash).Unchanged?
  {
    var next := Tick(s, true, env).state;
    TickSettles(s, env);
    SettledTick(next, env);
    FixedPointIterates(t => Tick(t, true, env), next, n);
  }
}

=== FILE: order.dfy ===
/** The order in which a pass visits containers: by creation time, ties broken by id. */
module ContainerOrder {
  import opened Cri

  /** Go's `<` on strings: lexicographic, a proper prefix sorting first. */
  predicate StrLess(a: string, b: string)
    decreases |a|
  {
    if |a| == 0 then 0 < |b|
    else if |b| == 0 then false
    else if a[0] != b[0] then a[0] < b[0]
    else StrLess(a[1..], b[1..])
  }

  lemma {:induction false} StrLessIrreflexive(a: string)
    ensures !StrLess(a, a)
    decreases |a|
  {
    if 0 < |a| {
      StrLessIrreflexive(a[1..]);
    }
  }

  lemma {:induction false} StrLessTransitive(a: string, b: string, c: string)
    requires StrLess(a, b) && StrLess(b, c)
    ensures StrLess(a, c)
    decreases |a|
  {
    if 0 < |a| && a[0] == b[0] && b[0] == c[0] {
      StrLessTransitive(a[1..], b[1..], c[1..]);
    }
  }

  lemma {:induction false} StrLessTotal(a: string, b: string)
    requires a != b
    ensures StrLess(a, b) || StrLess(b, a)
    decreases |a|
  {
    if 0 < |a| && 0 < |b| && a[0] == b[0] {
      assert a == [a[0]] + a[1..] && b == [b[0]] + b[1..];
      StrLessTotal(a[1..], b[1..]);
    }
  }

  /** The sort comparator of a pass. */
  predicate Less(x: Container, y: Container) {
    if x.createdAt != y.createdAt then x.createdAt < y.createdAt
    else StrLess(x.id, y.id)
  }

  predicate SameKey(x: Container, y: Container) {
    x.createdAt == y.createdAt && x.id == y.id
  }

  lemma LessIsStrictOrder(x: Container, y: Container, z: Container)
    ensures !Less(x, x)
    ensures Less(x, y) && Less(y, z) ==> Less(x, z)
    ensures !SameKey(x, y) ==> Less(x, y) || Less(y, x)
  {
    StrLessIrreflexive(x.id);
    if Less(x, y) && Less(y, z) && x.createdAt == y.createdAt == z.createdAt {
      StrLessTransitive(x.id, y.id, z.id);
    }
    if !SameKey(x, y) && x.createdAt == y.createdAt {
      StrLessTotal(x.id, y.id);
    }
  }

  /** "Not after" is transitive, because `Less` only looks at the key. */
  lemma NotLessTransitive(x: Container, y: Container, z: Container)
    requires !Less(y, x) && !Less(z, y)
    ensures !Less(z, x)
  {
    LessIsStrictOrder(x, y, z);
    LessIsStrictOrder(z, x, y);
  }

  /** No element is strictly before an earlier one. */
  predicate Sorted(s: seq<Container>) {
    forall i, j :: 0 <= i < j < |s| ==> !Less(s[j], s[i])
  }

  /** Containers that share creation time and id are the same record. */
  predicate KeysIdentify(s: seq<Container>) {
    forall x, y :: x in s && y in s && SameKey(x, y) ==> x == y
  }

  /** Every element of `t` is at or after `y`. */
  predicate NoneBefore(t: seq<Container>, y: Container) {
    forall j :: 0 <= j < |t| ==> !Less(t[j], y)
  }

  lemma NoneBeforeOfPermutation(t: seq<Container>, u: seq<Container>, x: Container, y: Container)
    requires multiset(t) == multiset(u) + multiset{x}
    requires NoneBefore(u, y) && !Less(x, y)
    ensures NoneBefore(t, y)
  {
    forall j | 0 <= j < |t|
      ensures !Less(t[j], y)
    {
      assert t[j] in multiset(t);
      if t[j] != x {
        assert t[j] in multiset(u);
        var k :| 0 <= k < |u| && u[k] == t[j];
      }
    }
  }

  lemma ConsSorted(y: Container, t: seq<Container>)
    requires Sorted(t) && NoneBefore(t, y)
    ensures Sorted([y] + t)
  {
  }

  lemma SortedHeadFirst(s: seq<Container>, x: Container)
    requires Sorted(s) && 0 < |s| && !Less(s[0], x)
    ensures NoneBefore(s, x)
  {
    forall j | 0 <= j < |s|
      ensures !Less(s[j], x)
    {
      if j == 0 {
        LessIsStrictOrder(x, x, x);
      } else {
        NotLessTransitive(x, s[0], s[j]);
      }
    }
  }

  function Insert(x: Container, s: seq<Container>): (r: seq<Container>)
    requires Sorted(s)
    ensures Sorted(r)
    ensures multiset(r) == multiset(s) + multiset{x}
  {
    if |s| == 0 then [x]
    else if Less(s[0], x) then
      var t := Insert(x, s[1..]);
      assert s == [s[0]] + s[1..];
      LessIsStrictOrder(x, s[0], x);
      NoneBeforeOfPermutation(t, s[1..], x, s[0]);
      ConsSorted(s[0], t);
      [s[0]] + t
    else
      SortedHeadFirst(s, x);
      ConsSorted(x, s);
      [x] + s
  }

  /** `sort.Slice` with the pass's comparator, realised as an insertion sort. */
  function Sort(s: seq<Container>): (r: seq<Container>)
    ensures Sorted(r)
    ensures multiset(r) == multiset(s)
  {
    if |s| == 0 then []
    else
      assert s == [s[0]] + s[1..];
      Insert(s[0], Sort(s[1..]))
  }

  /** The sorted containers ascend by creation time, and among equal creation times by id. */
  lemma SortAscending(s: seq<Container>, i: int, j: int)
    requires 0 <= i < j < |Sort(s)|
    ensures var r := Sort(s); r[i].createdAt <= r[j].createdAt
    ensures var r := Sort(s);
      r[i].createdAt == r[j].createdAt && r[i].id != r[j].id ==> StrLess(r[i].id, r[j].id)
  {
    var r := Sort(s);
    assert !Less(r[j], r[i]);
    if r[i].id != r[j].id {
      StrLessTotal(r[i].id, r[j].id);
    }
  }

  lemma SortedHeadsAgree(a: seq<Container>, b: seq<Container>)
    requires Sorted(a) && Sorted(b) && 0 < |a| && 0 < |b|
    requires multiset(a) == multiset(b)
    requires KeysIdentify(a)
    ensures a[0] == b[0]
  {
    assert a[0] in multiset(b) && b[0] in multiset(a);
    var i :| 0 <= i < |a| && a[i] == b[0];
    var j :| 0 <= j < |b| && b[j] == a[0];
    LessIsStrictOrder(a[0], b[0], b[0]);
    LessIsStrictOrder(b[0], a[0], a[0]);
    if i != 0 {
      assert !Less(a[i], a[0]);
    }
    if j != 0 {
      assert !Less(b[j], b[0]);
    }
  }

  lemma TailMultiset(a: seq<Container>)
    requires 0 < |a|
    ensures multiset(a[1..]) == multiset(a) - multiset{a[0]}
  {
    assert a == [a[0]] + a[1..];
  }

  /** Two sorted arrangements of the same containers coincide when equal keys mean equal
      records: the comparator leaves no freedom. */
  lemma {:induction false} SortedPermutationUnique(a: seq<Container>, b: seq<Container>)
    requires Sorted(a) && Sorted(b)
    requires multiset(a) == multiset(b)
    requires KeysIdentify(a)
    ensures a == b
    decreases |a|
  {
    assert |a| == |multiset(a)| == |multiset(b)| == |b|;
    if |a| != 0 {
      SortedHeadsAgree(a, b);
      TailMultiset(a);
      TailMultiset(b);
      assert KeysIdentify(a[1..]) by {
        forall x, y | x in a[1..] && y in a[1..] && SameKey(x, y)
          ensures x == y
        {
          assert x in a && y in a;
        }
      }
      assert Sorted(a[1..]) && Sorted(b[1..]);
      SortedPermutationUnique(a[1..], b[1..]);
      assert a == [a[0]] + a[1..] && b == [b[0]] + b[1..];
    }
  }

  /** The order of a listing does not reach the sorted sequence. */
  lemma SortIgnoresListingOrder(a: seq<Container>, b: seq<Container>)
    requires multiset(a) == multiset(b)
    requires KeysIdentify(a)
    ensures Sort(a) == Sort(b)
  {
    var sa, sb := Sort(a), Sort(b);
    assert forall x :: x in sa <==> x in a by {
      forall x ensures x in sa <==> x in a {
        assert x in sa <==> x in multiset(sa);
        assert x in a <==> x in multiset(a);
      }
    }
    SortedPermutationUnique(sa, sb);
  }
}

=== FILE: reconcile.dfy ===
/** One reconciliation pass: list, sort, extract, build the ruleset, and apply it unless its
    fingerprint matches the one stored after the last successful apply. */
module Reconcile {
  import opened Basics
  import opened Text
  import opened Cri
  import opened ContainerOrder
  import opened Extract
  import opened Ruleset

  /** Everything a pass consults outside itself: the runtime's container listing, the
      per-container lookups, the 64-bit fingerprint of a text, and whether `nft -f -`
      accepts a text (exit status 0). */
  datatype Env = Env(
    listing: Listing,
    lookups: Lookups,
    fingerprint: string -> Hash,
    nftAccepts: string -> bool)

  /** How a pass ends. */
  datatype Outcome =
    | Aborted(reason: Abort)             // returns false before anything is applied
    | Unchanged(text: string)            // fingerprint already stored: returns true, applies nothing
    | Applied(text: string, hash: Hash)  // nft accepted the text: returns true, stores `hash`
    | Fatal(text: string)                // nft rejected the text: the process terminates

  /** The entries a pass puts in its two maps, from the listed containers. */
  function DesiredBuffers(listing: Listing, lookups: Lookups): (r: Result<Buffers, Abort>)
    ensures listing.ListFailed? ==> r == Err(ListContainersFailed)
    ensures listing.Listed? ==>
      (r.Err? <==> !NoneFails(Sort(listing.containers), lookups))
    ensures listing.Listed? && r.Ok? ==>
      r.value == Buffers(ProtocolEntries(Sort(listing.containers), lookups, "TCP"),
                         ProtocolEntries(Sort(listing.containers), lookups, "UDP"))
  {
    match listing
    case ListFailed => Err(ListContainersFailed)
    case Listed(ctrs) =>
      var sorted := Sort(ctrs);
      var empty := Buffers([], []);
      CollectFromEmpty(sorted, lookups);
      Collect(sorted, lookups, empty)
  }

  lemma CollectFromEmpty(ctrs: seq<Container>, lookups: Lookups)
    ensures var r := Collect(ctrs, lookups, Buffers([], []));
      && (r.Err? <==> !NoneFails(ctrs, lookups))
      && (r.Ok? ==> r.value == Buffers(ProtocolEntries(ctrs, lookups, "TCP"),
                                       ProtocolEntries(ctrs, lookups, "UDP")))
  {
    CollectFailsIffSomeVisitFails(ctrs, lookups, Buffers([], []));
    if NoneFails(ctrs, lookups) {
      CollectMatchesReference(ctrs, lookups, Buffers([], []));
      assert [] + ProtocolEntries(ctrs, lookups, "TCP") == ProtocolEntries(ctrs, lookups, "TCP");
      assert [] + ProtocolEntries(ctrs, lookups, "UDP") == ProtocolEntries(ctrs, lookups, "UDP");
    }
  }

  /** The fingerprint check and the apply, given the ruleset text. */
  function ApplyIfChanged(text: string, prev: Hash, fingerprint: string -> Hash,
                          nftAccepts: string -> bool): (o: Outcome)
    ensures !o.Aborted? && o.text == text
    ensures o.Unchanged? <==> fingerprint(text) == prev
    ensures o.Applied? <==> fingerprint(text) != prev && nftAccepts(text)
    ensures o.Applied? ==> o.hash == fingerprint(text)
  {
    var hash := fingerprint(text);
    if hash == prev then Unchanged(text)
    else if nftAccepts(text) then Applied(text, hash)
    else Fatal(text)
  }

  /** A whole pass, starting from the stored fingerprint `prev`. */
  function Run(env: Env, prev: Hash): (o: Outcome)
    ensures o.Aborted? <==> DesiredBuffers(env.listing, env.lookups).Err?
    ensures !o.Aborted? ==> o.text == RulesetText(DesiredBuffers(env.listing, env.lookups).value)
  {
    match DesiredBuffers(env.listing, env.lookups)
    case Err(reason) => Aborted(reason)
    case Ok(buffers) => ApplyIfChanged(RulesetText(buffers), prev, env.fingerprint, env.nftAccepts)
  }

  /** The value a pass that returns hands back to the loop. */
  function Returned(o: Outcome): (ok: bool)
    requires !o.Fatal?
    ensures ok <==> !o.Aborted?
  {
    !o.Aborted?
  }

  /** The stored fingerprint after a pass. */
  function StoredHash(prev: Hash, o: Outcome): (h: Hash)
    ensures h != prev ==> o.Applied?
    ensures o.Applied? ==> h == o.hash
  {
    if o.Applied? then o.hash else prev
  }

  // ---------------------------------------------------------------------------
  // Properties of a pass

  /** A failed listing, a malformed ports annotation or a failed pod query ends the pass
      with `false`, applies nothing and keeps the stored fingerprint. */
  lemma AbortKeepsState(env: Env, prev: Hash)
    requires Run(env, prev).Aborted?
    ensures !Returned(Run(env, prev))
    ensures StoredHash(prev, Run(env, prev)) == prev
  {
  }

  /** The stored fingerprint only ever changes to that of a text nft accepted. */
  lemma HashChangesOnlyOnApply(env: Env, prev: Hash)
    ensures var o := Run(env, prev);
      StoredHash(prev, o) != prev ==>
        o.Applied? && env.nftAccepts(o.text) && StoredHash(prev, o) == env.fingerprint(o.text)
  {
  }

  /** A text whose fingerprint is already stored is not applied again. */
  lemma SameFingerprintSkips(env: Env, prev: Hash)
    ensures var desired := DesiredBuffers(env.listing, env.lookups);
      desired.Ok? && env.fingerprint(RulesetText(desired.value)) == prev ==>
        Run(env, prev).Unchanged? && StoredHash(prev, Run(env, prev)) == prev
  {
  }

  /** Running a pass again against the same runtime state applies nothing: the first pass
      stored the fingerprint of the very text the second one builds. */
  lemma SecondPassIsNoOp(env: Env, prev: Hash)
    ensures var first := Run(env, prev);
      first.Applied? || first.Unchanged? ==> Run(env, StoredHash(prev, first)) == Unchanged(first.text)
  {
  }

  /** After a restart the stored fingerprint is zero, so the first successful pass applies
      its ruleset unless that ruleset's fingerprint happens to be zero. */
  lemma FirstPassApplies(env: Env)
    requires DesiredBuffers(env.listing, env.lookups).Ok?
    requires env.fingerprint(RulesetText(DesiredBuffers(env.listing, env.lookups).value)) != 0
    ensures Run(env, 0).Applied? || Run(env, 0).Fatal?
  {
  }

  /** The order in which the runtime lists containers does not matter, as long as
      containers sharing creation time and id are the same record. */
  lemma ListingOrderIrrelevant(env: Env, ctrs: seq<Container>, prev: Hash)
    requires env.listing.Listed?
    requires multiset(ctrs) == multiset(env.listing.containers)
    requires KeysIdentify(ctrs)
    ensures Run(env.(listing := Listed(ctrs)), prev) == Run(env, prev)
  {
    SortIgnoresListingOrder(ctrs, env.listing.containers);
  }

  lemma InSorted(ctrs: seq<Container>, c: Container)
    requires c in ctrs
    ensures c in Sort(ctrs)
  {
    assert c in multiset(ctrs);
  }

  /** A listed container whose ports annotation is present but does not decode aborts the
      pass, whatever the other containers hold. */
  lemma InvalidPortsAborts(env: Env, c: Container, prev: Hash)
    requires env.listing.Listed? && c in env.listing.containers
    requires PortsText(c) != "" && env.lookups.decode(PortsText(c)).None?
    ensures Run(env, prev).Aborted?
  {
    var sorted := Sort(env.listing.containers);
    InSorted(env.listing.containers, c);
    var i :| 0 <= i < |sorted| && sorted[i] == c;
    assert VisitContainer(sorted[i], env.lookups).Failed?;
  }

  /** So does a container with declared ports whose pod status query fails. */
  lemma PodQueryFailureAborts(env: Env, c: Container, ports: seq<PortMapping>, prev: Hash)
    requires env.listing.Listed? && c in env.listing.containers
    requires PortsText(c) != "" && env.lookups.decode(PortsText(c)) == Some(ports) && ports != []
    requires env.lookups.podStatus(c.podSandboxId) == PodQueryFailed
    ensures Run(env, prev).Aborted?
  {
    var sorted := Sort(env.listing.containers);
    InSorted(env.listing.containers, c);
    var i :| 0 <= i < |sorted| && sorted[i] == c;
    assert VisitContainer(sorted[i], env.lookups).Failed?;
  }

  /** A container that makes a pass give up: its ports annotation is present but does not
      decode, or it declares ports and its pod status query fails. */
  predicate BreaksPass(c: Container, lookups: Lookups) {
    PortsText(c) != ""
    && (lookups.decode(PortsText(c)).None?
        || (lookups.decode(PortsText(c)).value != [] && lookups.podStatus(c.podSandboxId) == PodQueryFailed))
  }

  /** A pass returns false exactly when the listing fails or some listed container breaks
      it; nothing else aborts a pass. */
  lemma AbortCauses(env: Env, prev: Hash)
    ensures Run(env, prev).Aborted? <==>
      env.listing.ListFailed? || exists c :: c in env.listing.containers && BreaksPass(c, env.lookups)
  {
    if env.listing.Listed? {
      var ctrs := env.listing.containers;
      var sorted := Sort(ctrs);
      if Run(env, prev).Aborted? {
        assert !NoneFails(sorted, env.lookups);
        var i :| 0 <= i < |sorted| && VisitContainer(sorted[i], env.lookups).Failed?;
        var c := sorted[i];
        assert c in multiset(sorted);
        assert c in ctrs;
        assert BreaksPass(c, env.lookups);
      }
      if exists c :: c in ctrs && BreaksPass(c, env.lookups) {
        var c :| c in ctrs && BreaksPass(c, env.lookups);
        if env.lookups.decode(PortsText(c)).None? {
          InvalidPortsAborts(env, c, prev);
        } else {
          PodQueryFailureAborts(env, c, env.lookups.decode(PortsText(c)).value, prev);
        }
      }
    }
  }

  /** Pod IPs of the listed containers hold no line break. */
  predicate OneLineIps(ctrs: seq<Container>, lookups: Lookups) {
    forall c :: c in ctrs && lookups.podStatus(c.podSandboxId).PodIp? ==>
      Lacks(lookups.podStatus(c.podSandboxId).ip, '\n')
  }

  lemma {:induction false} ProtocolEntriesOneLine(ctrs: seq<Container>, lookups: Lookups, proto: string)
    requires OneLineIps(ctrs, lookups)
    ensures OneLine(ProtocolEntries(ctrs, lookups, proto))
    decreases |ctrs|
  {
    if |ctrs| != 0 {
      assert OneLineIps(ctrs[1..], lookups) by {
        forall c | c in ctrs[1..] ensures c in ctrs { }
      }
      ProtocolEntriesOneLine(ctrs[1..], lookups, proto);
      var mine := Contribution(VisitContainer(ctrs[0], lookups), proto);
      match VisitContainer(ctrs[0], lookups) {
        case Mapped(ports, ip) => EntriesShareIp(Keep(ports, proto), ip);
        case _ =>
      }
      assert OneLine(mine);
      assert ProtocolEntries(ctrs, lookups, proto) == mine + ProtocolEntries(ctrs[1..], lookups, proto);
    }
  }

  /** The text a pass hands to nft (or finds already applied) encodes exactly the mapped
      entries of each protocol, container after container in sorted order and in declared
      order within a container. */
  lemma RulesetEncodesMappings(env: Env, prev: Hash)
    requires env.listing.Listed?
    requires OneLineIps(env.listing.containers, env.lookups)
    requires !Run(env, prev).Aborted?
    ensures var sorted := Sort(env.listing.containers);
      ParseRuleset(Run(env, prev).text)
      == Some(Buffers(ProtocolEntries(sorted, env.lookups, "TCP"),
                      ProtocolEntries(sorted, env.lookups, "UDP")))
  {
    var sorted := Sort(env.listing.containers);
    assert OneLineIps(sorted, env.lookups) by {
      forall c | c in sorted ensures c in env.listing.containers {
        assert c in multiset(sorted);
      }
    }
    ProtocolEntriesOneLine(sorted, env.lookups, "TCP");
    ProtocolEntriesOneLine(sorted, env.lookups, "UDP");
    RulesetRoundTrip(DesiredBuffers(env.listing, env.lookups).value);
  }

  /** A container of the worked example: its pod is `pod-<id>` and its ports annotation is
      `ports`. */
  function ExampleContainer(id: string, createdAt: int, ports: string): Container {
    Container(id, createdAt, "pod-" + id, map[PortsAnnotation := ports], id)
  }

  lemma ExampleSorted()
    ensures var a, b := ExampleContainer("a", 1, "[a]"), ExampleContainer("b", 2, "[b]");
      Sort([b, a]) == [a, b]
  {
    var a, b := ExampleContainer("a", 1, "[a]"), ExampleContainer("b", 2, "[b]");
    assert Sort([a]) == [a];
    assert Less(a, b);
  }

  /** The worked two-container example. Listed newest first: `a` (created at 1) declares
      TCP 80 -> 8080 on pod IP 10.0.0.5, `b` (created at 2) declares UDP 53 -> 53 on pod IP
      10.0.0.6. The containers are visited oldest first, and each protocol's map holds its
      one entry. */
  lemma TwoContainerExample(lookups: Lookups)
    requires lookups.decode("[a]") == Some([PortMapping(80, 8080, "TCP")])
    requires lookups.decode("[b]") == Some([PortMapping(53, 53, "UDP")])
    requires lookups.podStatus("pod-a") == PodIp("10.0.0.5")
    requires lookups.podStatus("pod-b") == PodIp("10.0.0.6")
    ensures DesiredBuffers(Listed([ExampleContainer("b", 2, "[b]"), ExampleContainer("a", 1, "[a]")]), lookups)
         == Ok(Buffers([Entry(80, "10.0.0.5", 8080)], [Entry(53, "10.0.0.6", 53)]))
  {
    var a, b := ExampleContainer("a", 1, "[a]"), ExampleContainer("b", 2, "[b]");
    ExampleSorted();
    assert PortsText(a) == "[a]" && PortsText(b) == "[b]";
    assert a.podSandboxId == "pod-a" && b.podSandboxId == "pod-b";
    var pa, pb := [PortMapping(80, 8080, "TCP")], [PortMapping(53, 53, "UDP")];
    var ea, eb := Entry(80, "10.0.0.5", 8080), Entry(53, "10.0.0.6", 53);
    assert VisitContainer(a, lookups) == Mapped(pa, "10.0.0.5");
    assert VisitContainer(b, lookups) == Mapped(pb, "10.0.0.6");
    var afterA := WriteAll(Buffers([], []), pa, "10.0.0.5");
    assert afterA == Buffers([ea], []);
    var afterB := WriteAll(afterA, pb, "10.0.0.6");
    assert afterB == Buffers([ea], [eb]);
    assert [a, b][1..] == [b];
    assert Collect([b], lookups, afterA) == Ok(afterB);
    assert Collect([a, b], lookups, Buffers([], [])) == Ok(afterB);
  }
}

=== FILE: ruleset.dfy ===
/** The nftables ruleset text a pass generates, and a reader for that text. */
module Ruleset {
  import opened Basics
  import opened Text
  import opened Decimal
  import opened Extract

  /** Table reset (declare, delete, recreate) and the prerouting chain header. */
  const Header: string :=
    "table container-hostports {}\n"
    + "delete table container-hostports;\n"
    + "table container-hostports {\n"
    + "  chain prerouting {\n"
    + "    type nat hook prerouting priority filter; policy accept;\n"

  /** The hook lines; they first differ at offset 33 ("tcp" against "udp"). */
  const TcpHook: string := "    " + "fib daddr type local dnat to " + "tcp dport map @host-ports-tcp;\n"
  const UdpHook: string := "    " + "fib daddr type local dnat to " + "udp dport map @host-ports-udp;\n"
  const ChainEnd: string := "  }\n"
  const TcpMapHead: string :=
    "  map host-ports-tcp {\n" + "    type inet_service : ipv4_addr . inet_service;\n" + "    elements = {\n"
  const UdpMapHead: string :=
    "  map host-ports-udp {\n" + "    type inet_service : ipv4_addr . inet_service;\n" + "    elements = {\n"
  const MapTail: string := "    }\n" + "  }\n"
  const TableEnd: string := "}\n"

  /** Indentation of a map element, and the separators inside one. */
  const Indent: string := "      "
  const HostSep: string := " : "
  const PortSep: string := " . "

  /** A map element: `host : ip . container`. */
  function Element(e: Entry): string {
    Itoa(e.hostPort) + HostSep + e.ip + PortSep + Itoa(e.containerPort)
  }

  /** An element line, without its line break. */
  function LineBody(e: Entry): (line: string)
    ensures HasPrefix(line, Indent)
  {
    PrefixOfConcat(Indent, Element(e) + ",");
    assert Indent + Element(e) + "," == Indent + (Element(e) + ",");
    Indent + Element(e) + ","
  }

  /** The line a pass writes to a protocol buffer for one entry. */
  function EntryLine(e: Entry): (line: string)
    ensures HasPrefix(line, Indent)
    ensures line[|line| - 1] == '\n'
  {
    assert (LineBody(e) + "\n")[..|Indent|] == LineBody(e)[..|Indent|];
    LineBody(e) + "\n"
  }

  /** The contents of a protocol buffer after writing `es` in order. */
  function BufferText(es: seq<Entry>): (text: string)
    ensures |text| == 0 <==> |es| == 0
  {
    if |es| == 0 then "" else EntryLine(es[0]) + BufferText(es[1..])
  }

  /** A section of the ruleset that is written only when `on`. */
  function Optional(on: bool, s: string): string {
    if on then s else ""
  }

  /** The ruleset text, built from the two buffers as a pass writes it: the hook line and
      the map block of a protocol appear only when its buffer is not empty. */
  function Render(tcpBuf: string, udpBuf: string): string {
    var tcpOn, udpOn := |tcpBuf| != 0, |udpBuf| != 0;
    Header
    + Optional(tcpOn, TcpHook)
    + Optional(udpOn, UdpHook)
    + ChainEnd
    + Optional(tcpOn, TcpMapHead + tcpBuf + MapTail)
    + Optional(udpOn, UdpMapHead + udpBuf + MapTail)
    + TableEnd
  }

  /** The text of a whole pass's ruleset, from its entries. */
  function RulesetText(b: Buffers): string {
    Render(BufferText(b.tcp), BufferText(b.udp))
  }

  // ---------------------------------------------------------------------------
  // Reading the text back

  /** Reads `host : ip . container`. The host port is the text up to the first space and the
      container port the text after the last one, so any IP in between is recovered. */
  function ParseElement(body: string): Option<Entry> {
    var j := IndexOf(body, ' ');
    var after := body[j..];
    if !HasPrefix(after, HostSep) then None
    else
      var rest := after[|HostSep|..];
      var k := LastIndexOf(rest, ' ');
      if k < 2 || rest[k - 2..k + 1] != PortSep then None
      else match (ParseInt(body[..j]), ParseInt(rest[k + 1..]))
        case (Some(h), Some(c)) => Some(Entry(h, rest[..k - 2], c))
        case _ => None
  }

  /** Reads one element line, without its line break. */
  function ParseEntryLine(line: string): Option<Entry> {
    if !HasPrefix(line, Indent) || |line| == |Indent| || line[|line| - 1] != ',' then None
    else ParseElement(line[|Indent|..|line| - 1])
  }

  /** Reads map elements, one per line, while lines carry the element indentation; returns
      them with the text that follows. */
  function ParseEntries(s: string): Option<(seq<Entry>, string)>
    decreases |s|
  {
    if !HasPrefix(s, Indent) then Some(([], s))
    else
      var n := IndexOf(s, '\n');
      if n == |s| then None
      else match ParseEntryLine(s[..n])
        case None => None
        case Some(e) =>
          match ParseEntries(s[n + 1..])
          case None => None
          case Some((es, rest)) => Some(([e] + es, rest))
  }

  /** Reads one map block with the given head; a block is never empty. */
  function ParseMap(s: string, head: string): Option<(seq<Entry>, string)> {
    if !HasPrefix(s, head) then None
    else match ParseEntries(s[|head|..])
      case None => None
      case Some((es, rest)) =>
        if HasPrefix(rest, MapTail) && es != [] then Some((es, rest[|MapTail|..])) else None
  }

  /** Reads an optional fixed line: whether it is there, and what follows. */
  function ParseHook(r: string, hook: string): (bool, string) {
    if HasPrefix(r, hook) then (true, r[|hook|..]) else (false, r)
  }

  /** Reads the map block the hook line announced, if it did. */
  function ParseOptionalMap(on: bool, r: string, head: string): Option<(seq<Entry>, string)> {
    if on then ParseMap(r, head) else Some(([], r))
  }

  /** Reads a whole ruleset back into its two entry lists. */
  function ParseRuleset(text: string): Option<Buffers> {
    if !HasPrefix(text, Header) then None
    else
      var (tcpOn, r1) := ParseHook(text[|Header|..], TcpHook);
      var (udpOn, r2) := ParseHook(r1, UdpHook);
      if !HasPrefix(r2, ChainEnd) then None
      else match ParseOptionalMap(tcpOn, r2[|ChainEnd|..], TcpMapHead)
        case None => None
        case Some((tcp, r3)) =>
          match ParseOptionalMap(udpOn, r3, UdpMapHead)
          case None => None
          case Some((udp, r4)) => if r4 == TableEnd then Some(Buffers(tcp, udp)) else None
  }

  /** Entries whose IP holds no line break, so that each fits on one line. */
  predicate OneLine(es: seq<Entry>) {
    forall k :: 0 <= k < |es| ==> Lacks(es[k].ip, '\n')
  }

  // ---------------------------------------------------------------------------
  // Round trip

  lemma ItoaHasNoBreaks(i: int)
    ensures Lacks(Itoa(i), ' ') && Lacks(Itoa(i), '\n')
  {
  }

  /** The separators are found whatever lies between them, as long as the two numbers hold
      no space. */
  lemma ParseElementParts(hs: string, ip: string, cs: string)
    requires Lacks(hs, ' ') && Lacks(cs, ' ')
    ensures ParseElement(hs + HostSep + ip + PortSep + cs)
         == match (ParseInt(hs), ParseInt(cs))
            case (Some(h), Some(c)) => Some(Entry(h, ip, c))
            case _ => None
  {
    var rest := ip + PortSep + cs;
    var body := hs + HostSep + ip + PortSep + cs;
    assert body == hs + (HostSep + rest);
    IndexOfConcat(hs, HostSep + rest, ' ');
    var j := IndexOf(body, ' ');
    assert body[..j] == hs;
    assert body[j..] == HostSep + rest;
    PrefixOfConcat(HostSep, rest);
    assert rest == (ip + PortSep) + cs;
    LastIndexOfConcat(ip + PortSep, cs, ' ');
    var k := LastIndexOf(rest, ' ');
    assert k == |ip| + 2;
    assert rest[k - 2..k + 1] == PortSep;
    assert rest[k + 1..] == cs && rest[..k - 2] == ip;
  }

  /** An element reads back as the entry it was written from, whatever its IP. */
  lemma ElementRoundTrip(e: Entry)
    ensures ParseElement(Element(e)) == Some(e)
  {
    ItoaHasNoBreaks(e.hostPort);
    ItoaHasNoBreaks(e.containerPort);
    ParseElementParts(Itoa(e.hostPort), e.ip, Itoa(e.containerPort));
    ItoaRoundTrip(e.hostPort);
    ItoaRoundTrip(e.containerPort);
  }

  lemma LineBodyOneLine(e: Entry)
    requires Lacks(e.ip, '\n')
    ensures Lacks(LineBody(e), '\n')
  {
    var hs, cs := Itoa(e.hostPort), Itoa(e.containerPort);
    ItoaHasNoBreaks(e.hostPort);
    ItoaHasNoBreaks(e.containerPort);
    LacksConcat(hs, HostSep, '\n');
    LacksConcat(hs + HostSep, e.ip, '\n');
    LacksConcat(hs + HostSep + e.ip, PortSep, '\n');
    LacksConcat(hs + HostSep + e.ip + PortSep, cs, '\n');
    LacksConcat(Indent, Element(e), '\n');
    LacksConcat(Indent + Element(e), ",", '\n');
  }

  lemma LineBodyRoundTrip(e: Entry)
    ensures ParseEntryLine(LineBody(e)) == Some(e)
  {
    var line := LineBody(e);
    assert line == Indent + (Element(e) + ",");
    PrefixOfConcat(Indent, Element(e) + ",");
    assert line[|Indent|..|line| - 1] == Element(e);
    ElementRoundTrip(e);
  }

  /** A line that starts with the indent, holds no line break and reads as `e` is read,
      then reading continues after its line break. */
  lemma ParseEntriesSplit(line: string, tail: string, e: Entry)
    requires HasPrefix(line, Indent) && Lacks(line, '\n')
    requires ParseEntryLine(line) == Some(e)
    ensures ParseEntries(line + "\n" + tail)
         == match ParseEntries(tail)
            case None => None
            case Some((es, rest)) => Some(([e] + es, rest))
  {
    var s := line + "\n" + tail;
    SplitAtFirst(line, tail, '\n');
    assert HasPrefix(s, Indent) by {
      assert s[..|Indent|] == line[..|Indent|];
    }
  }

  /** One element line is read, then reading continues after its line break. */
  lemma ParseEntriesStep(e: Entry, tail: string)
    requires Lacks(e.ip, '\n')
    ensures ParseEntries(EntryLine(e) + tail)
         == match ParseEntries(tail)
            case None => None
            case Some((es, rest)) => Some(([e] + es, rest))
  {
    LineBodyOneLine(e);
    LineBodyRoundTrip(e);
    ParseEntriesSplit(LineBody(e), tail, e);
  }

  lemma OneLineTail(es: seq<Entry>)
    requires 0 < |es| && OneLine(es)
    ensures OneLine(es[1..])
  {
    forall k | 0 <= k < |es[1..]| ensures Lacks(es[1..][k].ip, '\n') {
      assert es[1..][k] == es[k + 1];
    }
  }

  /** A non-empty buffer, followed by more text, is its first line followed by the rest. */
  lemma BufferTextCons(es: seq<Entry>, rest: string)
    requires 0 < |es|
    ensures BufferText(es) + rest == EntryLine(es[0]) + (BufferText(es[1..]) + rest)
  {
    AppendAssoc(EntryLine(es[0]), BufferText(es[1..]), rest);
  }

  /** A buffer whose lines after the first read back as written reads back as written. */
  lemma ParseBufferCons(es: seq<Entry>, rest: string)
    requires 0 < |es| && Lacks(es[0].ip, '\n')
    requires ParseEntries(BufferText(es[1..]) + rest) == Some((es[1..], rest))
    ensures ParseEntries(BufferText(es) + rest) == Some((es, rest))
  {
    BufferTextCons(es, rest);
    ParseEntriesStep(es[0], BufferText(es[1..]) + rest);
    assert [es[0]] + es[1..] == es;
  }

  /** Map elements written by a pass read back as the same entries, up to the first line
      that is not an element. */
  lemma {:induction false} ParseEntriesOfBuffer(es: seq<Entry>, rest: string)
    requires OneLine(es)
    requires !HasPrefix(rest, Indent)
    ensures ParseEntries(BufferText(es) + rest) == Some((es, rest))
    decreases |es|
  {
    if |es| == 0 {
      assert BufferText(es) + rest == rest;
      assert ParseEntries(rest) == Some(([], rest));
    } else {
      OneLineTail(es);
      ParseEntriesOfBuffer(es[1..], rest);
      ParseBufferCons(es, rest);
    }
  }

  lemma ParseMapOfBlock(head: string, es: seq<Entry>, rest: string)
    requires OneLine(es) && es != []
    ensures ParseMap(head + BufferText(es) + MapTail + rest, head) == Some((es, rest))
  {
    var body, after := BufferText(es), MapTail + rest;
    var s := head + body + MapTail + rest;
    AppendAssoc(head + body, MapTail, rest);
    AppendAssoc(head, body, after);
    PrefixOfConcat(head, body + after);
    assert s[|head|..] == body + after;
    assert !HasPrefix(after, Indent) by {
      assert after[4] == '}' && Indent[4] == ' ';
    }
    ParseEntriesOfBuffer(es, after);
    PrefixOfConcat(MapTail, rest);
  }

  lemma ParseHookPresent(hook: string, r: string)
    ensures ParseHook(hook + r, hook) == (true, r)
  {
    PrefixOfConcat(hook, r);
  }

  /** What may follow the header when the TCP hook is absent cannot be mistaken for it, and
      likewise for the UDP hook. */
  lemma HooksDistinct(x: string)
    ensures !HasPrefix(UdpHook + x, TcpHook)
    ensures !HasPrefix(ChainEnd + x, TcpHook)
    ensures !HasPrefix(ChainEnd + x, UdpHook)
  {
    assert (UdpHook + x)[33] == 'u' && TcpHook[33] == 't';
    assert (ChainEnd + x)[2] == '}' && TcpHook[2] == ' ' && UdpHook[2] == ' ';
  }

  lemma OptionalHook(on: bool, hook: string, r: string)
    requires !HasPrefix(r, hook)
    ensures ParseHook(Optional(on, hook) + r, hook) == (on, r)
  {
    if on {
      ParseHookPresent(hook, r);
    } else {
      assert "" + r == r;
    }
  }

  lemma OptionalMapOf(on: bool, head: string, es: seq<Entry>, rest: string)
    requires OneLine(es)
    requires on <==> es != []
    ensures ParseOptionalMap(on, Optional(on, head + BufferText(es) + MapTail) + rest, head)
         == Some((es, rest))
  {
    if on {
      ParseMapOfBlock(head, es, rest);
    } else {
      assert "" + rest == rest;
    }
  }

  /** The ruleset text as nested sections, each one followed by the rest. */
  lemma RulesetTextSections(b: Buffers)
    ensures var tcpOn, udpOn := b.tcp != [], b.udp != [];
      RulesetText(b)
      == Header + (Optional(tcpOn, TcpHook) + (Optional(udpOn, UdpHook) + (ChainEnd
         + (Optional(tcpOn, TcpMapHead + BufferText(b.tcp) + MapTail)
         + (Optional(udpOn, UdpMapHead + BufferText(b.udp) + MapTail) + TableEnd)))))
  {
    var tcpOn, udpOn := b.tcp != [], b.udp != [];
    var hookT, hookU := Optional(tcpOn, TcpHook), Optional(udpOn, UdpHook);
    var mapT := Optional(tcpOn, TcpMapHead + BufferText(b.tcp) + MapTail);
    var mapU := Optional(udpOn, UdpMapHead + BufferText(b.udp) + MapTail);
    assert RulesetText(b) == Header + hookT + hookU + ChainEnd + mapT + mapU + TableEnd;
    AppendAssoc(Header + hookT + hookU + ChainEnd + mapT, mapU, TableEnd);
    AppendAssoc(Header + hookT + hookU + ChainEnd, mapT, mapU + TableEnd);
    AppendAssoc(Header + hookT + hookU, ChainEnd, mapT + (mapU + TableEnd));
    AppendAssoc(Header + hookT, hookU, ChainEnd + (mapT + (mapU + TableEnd)));
    AppendAssoc(Header, hookT, hookU + (ChainEnd + (mapT + (mapU + TableEnd))));
  }

  /** Reading the sections back, one at a time. */
  lemma ParseSections(tcp: seq<Entry>, udp: seq<Entry>)
    requires OneLine(tcp) && OneLine(udp)
    ensures var tcpOn, udpOn := tcp != [], udp != [];
      ParseRuleset(Header + (Optional(tcpOn, TcpHook) + (Optional(udpOn, UdpHook) + (ChainEnd
         + (Optional(tcpOn, TcpMapHead + BufferText(tcp) + MapTail)
         + (Optional(udpOn, UdpMapHead + BufferText(udp) + MapTail) + TableEnd))))))
      == Some(Buffers(tcp, udp))
  {
    var tcpOn, udpOn := tcp != [], udp != [];
    var r3 := Optional(udpOn, UdpMapHead + BufferText(udp) + MapTail) + TableEnd;
    var x := Optional(tcpOn, TcpMapHead + BufferText(tcp) + MapTail) + r3;
    PrefixOfConcat(Header, Optional(tcpOn, TcpHook) + (Optional(udpOn, UdpHook) + (ChainEnd + x)));
    HookLinesOf(tcpOn, udpOn, x);
    PrefixOfConcat(ChainEnd, x);
    OptionalMapOf(tcpOn, TcpMapHead, tcp, r3);
    OptionalMapOf(udpOn, UdpMapHead, udp, TableEnd);
  }

  /** Reading a generated ruleset recovers both entry lists: the text determines the
      mappings it was built from. */
  lemma RulesetRoundTrip(b: Buffers)
    requires OneLine(b.tcp) && OneLine(b.udp)
    ensures ParseRuleset(RulesetText(b)) == Some(b)
  {
    RulesetTextSections(b);
    ParseSections(b.tcp, b.udp);
  }

  /** Every ruleset starts with the table reset and chain header and ends by closing the
      table. */
  lemma RulesetFrame(b: Buffers)
    ensures var text := RulesetText(b);
      && HasPrefix(text, Header)
      && |text| >= |Header| + |TableEnd| && text[|text| - |TableEnd|..] == TableEnd
  {
    var tcpOn, udpOn := b.tcp != [], b.udp != [];
    var middle := Optional(tcpOn, TcpHook) + Optional(udpOn, UdpHook) + ChainEnd
      + Optional(tcpOn, TcpMapHead + BufferText(b.tcp) + MapTail)
      + Optional(udpOn, UdpMapHead + BufferText(b.udp) + MapTail);
    var text := RulesetText(b);
    assert text == Header + Optional(tcpOn, TcpHook) + Optional(udpOn, UdpHook) + ChainEnd
      + Optional(tcpOn, TcpMapHead + BufferText(b.tcp) + MapTail)
      + Optional(udpOn, UdpMapHead + BufferText(b.udp) + MapTail) + TableEnd;
    SuffixOfConcat(text[..|text| - |TableEnd|], TableEnd);
    RulesetTextSections(b);
    PrefixOfConcat(Header, text[|Header|..]);
  }

  lemma HookLinesOf(tcpOn: bool, udpOn: bool, x: string)
    ensures var (tcpHook, r1) := ParseHook(Optional(tcpOn, TcpHook) + (Optional(udpOn, UdpHook) + (ChainEnd + x)), TcpHook);
      var (udpHook, r2) := ParseHook(r1, UdpHook);
      tcpHook == tcpOn && udpHook == udpOn && r2 == ChainEnd + x
  {
    var r2 := ChainEnd + x;
    var r1 := Optional(udpOn, UdpHook) + r2;
    HooksDistinct(x);
    HooksDistinct(r2);
    if !udpOn {
      assert r1 == r2;
    }
    assert !HasPrefix(r1, TcpHook);
    OptionalHook(tcpOn, TcpHook, r1);
    OptionalHook(udpOn, UdpHook, r2);
  }

  /** Right after the header, the TCP hook line is present exactly when there are TCP
      entries, then the UDP hook line exactly when there are UDP entries, and then the chain
      is closed. */
  lemma HookLinesIffEntries(b: Buffers)
    ensures var (tcpHook, r1) := ParseHook(RulesetText(b)[|Header|..], TcpHook);
      var (udpHook, r2) := ParseHook(r1, UdpHook);
      (tcpHook <==> b.tcp != []) && (udpHook <==> b.udp != []) && HasPrefix(r2, ChainEnd)
  {
    var tcpOn, udpOn := b.tcp != [], b.udp != [];
    var x := Optional(tcpOn, TcpMapHead + BufferText(b.tcp) + MapTail)
      + (Optional(udpOn, UdpMapHead + BufferText(b.udp) + MapTail) + TableEnd);
    RulesetTextSections(b);
    PrefixOfConcat(Header, Optional(tcpOn, TcpHook) + (Optional(udpOn, UdpHook) + (ChainEnd + x)));
    HookLinesOf(tcpOn, udpOn, x);
    PrefixOfConcat(ChainEnd, x);
  }

  /** The element line written for host port 80 forwarding to 10.0.0.5 port 8080. */
  lemma ExampleEntryLine()
    ensures EntryLine(Entry(80, "10.0.0.5", 8080)) == "      " + "80" + " : " + "10.0.0.5" + " . " + "8080" + ",\n"
  {
    assert Digits(8) == "8";
    assert Digits(80) == Digits(8) + "0" == "80";
    assert Digits(808) == Digits(80) + "8" == "808";
    assert Digits(8080) == Digits(808) + "0" == "8080";
    assert Itoa(80) == "80" && Itoa(8080) == "8080";
    var e := Entry(80, "10.0.0.5", 8080);
    assert Element(e) == "80" + " : " + "10.0.0.5" + " . " + "8080";
    assert LineBody(e) == "      " + Element(e) + ",";
  }
}

=== FILE: text.dfy ===
/** Character searches over strings, used to read the generated ruleset back. */
module Text {

  /** `c` occurs nowhere in `s`. */
  predicate Lacks(s: string, c: char) {
    forall i :: 0 <= i < |s| ==> s[i] != c
  }

  /** Position of the first `c` in `s`, or `|s|` when there is none. */
  function IndexOf(s: string, c: char): (r: nat)
    ensures r <= |s|
    ensures r < |s| ==> s[r] == c
    ensures forall i :: 0 <= i < r ==> s[i] != c
  {
    if |s| == 0 then 0
    else if s[0] == c then 0
    else 1 + IndexOf(s[1..], c)
  }

  /** Position of the last `c` in `s`, or -1 when there is none. */
  function LastIndexOf(s: string, c: char): (r: int)
    ensures -1 <= r < |s|
    ensures 0 <= r ==> s[r] == c
    ensures forall i :: r < i < |s| ==> s[i] != c
  {
    if |s| == 0 then -1
    else if s[|s| - 1] == c then |s| - 1
    else LastIndexOf(s[..|s| - 1], c)
  }

  /** `p` is a prefix of `s`. */
  predicate HasPrefix(s: string, p: string) {
    |p| <= |s| && s[..|p|] == p
  }

  /** The part of `s` after the prefix `p`, when `s` starts with `p`. */
  function StripPrefix(s: string, p: string): (r: string)
    requires HasPrefix(s, p)
    ensures p + r == s
  {
    s[|p|..]
  }

  lemma AppendAssoc<T>(a: seq<T>, b: seq<T>, c: seq<T>)
    ensures (a + b) + c == a + (b + c)
  {
  }

  lemma SuffixOfConcat(s: string, p: string)
    ensures (s + p)[|s + p| - |p|..] == p
  {
  }

  lemma PrefixOfConcat(p: string, s: string)
    ensures HasPrefix(p + s, p)
    ensures StripPrefix(p + s, p) == s
  {
    assert (p + s)[..|p|] == p;
  }

  lemma LacksConcat(a: string, b: string, c: char)
    ensures Lacks(a + b, c) <==> Lacks(a, c) && Lacks(b, c)
  {
    if Lacks(a, c) && Lacks(b, c) {
      forall i | 0 <= i < |a + b| ensures (a + b)[i] != c {
        if i >= |a| {
          assert (a + b)[i] == b[i - |a|];
        }
      }
    }
    if Lacks(a + b, c) {
      forall i | 0 <= i < |a| ensures a[i] != c {
        assert (a + b)[i] == a[i];
      }
      forall i | 0 <= i < |b| ensures b[i] != c {
        assert (a + b)[|a| + i] == b[i];
      }
    }
  }

  /** The first `c` of `a + b` is the head of `b` when `a` has none. */
  lemma IndexOfConcat(a: string, b: string, c: char)
    requires Lacks(a, c) && 0 < |b| && b[0] == c
    ensures IndexOf(a + b, c) == |a|
  {
    assert (a + b)[|a|] == c;
    assert forall i :: 0 <= i < |a| ==> (a + b)[i] == a[i];
  }

  /** Splitting at the first `c` recovers the parts around it when the first part has none. */
  lemma SplitAtFirst(a: string, b: string, c: char)
    requires Lacks(a, c)
    ensures var s := a + [c] + b;
      IndexOf(s, c) == |a| && s[..|a|] == a && s[|a| + 1..] == b
  {
    AppendAssoc(a, [c], b);
    IndexOfConcat(a, [c] + b, c);
  }

  /** The last `c` of `a + b` is the end of `a` when `b` has none. */
  lemma LastIndexOfConcat(a: string, b: string, c: char)
    requires 0 < |a| && a[|a| - 1] == c && Lacks(b, c)
    ensures LastIndexOf(a + b, c) == |a| - 1
  {
    assert (a + b)[|a| - 1] == c;
    assert forall i :: |a| <= i < |a + b| ==> (a + b)[i] == b[i - |a|];
  }
}
